=== FILE: README.md ===
# keyword-planner core, modelled in Dafny

The keyword planner drives a remote Chrome session through Google Ads'
Keyword Planner. For each search word it downloads the keyword ideas as a
CSV file into an output directory. This project models the decisions the
Go package `keywordplanner` makes around the browser automation:

- **Sanitiser** (`sanitizer.dfy`, module `Sanitizer`): `convertInvalidCharacters`.
  It replaces each of the runes `\ / : * ? " > < |` with `_` and keeps every other rune.
  It is modelled both as a recursive function and as a method that mirrors the source's nested loop.
- **Error classification** (`errors.dfy`, module `Errors`): the retry loop's
  `err != context.DeadlineExceeded` test. Only the bare sentinel is a timeout.
  A wrapped deadline is fatal.
- **One attempt** (`extraction.dfy`, module `Extraction`): the download-button
  choice by viewport width, the three-way `aria-disabled` branch, the
  destination name `<sanitised word>.csv`, and `getKeywordsSub` as a pure
  function of the replies the browser, the download listener and the file
  system gave. `getKeywords` is modelled as a pure function of which side of the
  deadline race won.
- **Word loop** (`retry_run.dfy`, module `RetryRun`): the retry state machine
  of `Request.Execute`. Each attempt's outcome (`Ok`, `Timeout`, `Fatal(err)`)
  comes from an oracle indexed by word index and attempt number. The run
  returns its verdict and the trace of attempts `(word index, attempt number)`.
  The counter can be evaluated with mathematical integers or with Go's
  64-bit wrap-around.
- **Execute** (`execute.dfy`, module `Execution`): the width probe, the
  download-behaviour setup and the word loop, composed. `filepath.Join` and
  the session's replies are parameters. The package globals (`downloadButtonXpath`,
  `tempDir`) become a result and an input.

Go strings are modelled as their rune sequences (`seq<char>`).

`Retry` counts attempts, not retries. The flag's help text (cmd/kp/main.go:23)
calls it the "number of retries when timeout occurs for each word", default 3.
The code at keywordplanner.go:81-93 tests the counter after decrementing it.
So a word that keeps timing out gets `max(Retry, 1)` attempts: `Retry - 1`
retries when `Retry >= 1`. The exception is Go's 64-bit minimum, where the
decrement wraps (see Findings). The model's unbounded counter follows the
code for every other `Retry` (`RetryRun.TimeoutsGiveMaxRetryAttempts`,
`RetryRun.RunWrapAgrees`).

## Model

| member | source | states |
|---|---|---|
| `Errors.Classify` | keywordplanner.go:83-89 | nil is `Ok`; exactly the bare `context.DeadlineExceeded` is `Timeout`; every other error is `Fatal` and carries that same error |
| `Errors.WrappedDeadlineIsFatal` | keywordplanner.go:87-89 | a deadline wrapped with context is still a deadline to `errors.Is`, yet the `!=` test makes it fatal |
| `Sanitizer.ConvertRune` | keywordplanner.go:190-200 | a converted rune is never one of the invalid runes |
| `Sanitizer.Sanitize` | keywordplanner.go:184-202 | the sanitised word has as many runes as the word |
| `Sanitizer.ConvertInvalidCharacters` | keywordplanner.go:184-203 | the nested scan-and-append loop computes the sanitised word: same length, `_` at each invalid rune, the rune itself elsewhere |
| `Sanitizer.SanitizeAt` | keywordplanner.go:196-200 | output rune `i` is the conversion of input rune `i` |
| `Sanitizer.SanitizePositionwise` | keywordplanner.go:196-200 | an invalid rune at index `i` becomes `_` at index `i`; any other rune stays unchanged at index `i` |
| `Sanitizer.SanitizeIsClean` | keywordplanner.go:182-200 | no rune of the invalid set occurs in the output |
| `Sanitizer.SanitizeFixesExactlyClean` | keywordplanner.go:188-200 | sanitising returns the word unchanged if and only if the word holds no invalid rune |
| `Sanitizer.SanitizeIdempotent` | keywordplanner.go:182-200 | sanitising a sanitised word changes nothing, since `_` is not invalid |
| `Sanitizer.SanitizeNotInjective` | keywordplanner.go:182-200 | distinct words such as `a/b` and `a:b` sanitise to the same `a_b` |
| `Extraction.SelectDownloadButton` | keywordplanner.go:56-60 | the second download menu's button is chosen if and only if the width is at most 1560; otherwise the first menu's button |
| `Extraction.DecideOnAria` | keywordplanner.go:141-147 | a missing attribute is the error case; exactly the value `"true"` means no keywords; any other value starts the download |
| `Extraction.DestinationFileName` | keywordplanner.go:167-168 | the file name is the word's length plus four runes, ends in `.csv`, and holds no invalid rune |
| `Extraction.DestinationFileNameCollides` | keywordplanner.go:167-168 | two words get the same file name if and only if they sanitise alike |
| `Extraction.GetKeywordsSub` | keywordplanner.go:117-180 | an attempt never returns the bare deadline; each failure point returns its own error: the three `chromedp.Run` failures wrapped with "chromedp.Run failed", a missing `aria-disabled` and a closed download channel as plain errors, open and create failures wrapped with the path, a copy failure as a plain error naming both paths; it finds no keywords exactly when the button reads `aria-disabled="true"`; it saves exactly when every step succeeds, copying `tempDir/guid` to `outDir/<sanitised word>.csv` |
| `Extraction.GetKeywords` | keywordplanner.go:100-115 | the supervised attempt counts as a timeout if and only if the deadline won the race; otherwise it returns the attempt's own error |
| `Extraction.InnerDeadlineIsFatal` | keywordplanner.go:118-130 | a deadline hit inside the browser steps comes back wrapped and is classified fatal |
| `Extraction.ExampleDestinations` | keywordplanner.go:162-168 | `socks` and `a/b` are copied from `tempDir/g1` and `tempDir/g2` to `socks.csv` and `a_b.csv` |
| `RetryRun.Decrement` | keywordplanner.go:90 | the decrement lowers the counter, except that Go's 64-bit minimum wraps to the maximum |
| `RetryRun.RetryWord` | keywordplanner.go:81-94 | a word's attempts are numbered consecutively, at least one and at most the budget; all but the last timed out; the last decides: `Ok` passes, `Fatal(e)` stops with `e`, a timeout stops with the retry error after exactly the budget |
| `RetryRun.RunWords` | keywordplanner.go:80-97 | from word `i` on, the trace starts at attempt 0 of word `i`, never goes back a word, and moves only to a retry after a timeout or to the next word after success; success ends on the last word's `Ok`; an abort ends on a fatal outcome carrying its error or on the last budgeted timeout |
| `RetryRun.Run` | keywordplanner.go:80-97 | the same trace and verdict guarantees, for the whole word list |
| `RetryRun.RetryWordPassesIff` | keywordplanner.go:82-93 | a word passes if and only if some attempt within its budget is `Ok` and every earlier attempt timed out |
| `RetryRun.RunCompletesIff` | keywordplanner.go:80-97 | the run succeeds if and only if every word, in turn, succeeds within its budget |
| `RetryRun.OnlyLastIsFatal` | keywordplanner.go:87-89 | in a run's trace only the last attempt can be fatal |
| `RetryRun.FatalEndsRun` | keywordplanner.go:80-89 | a fatal attempt is the run's last; the run fails with that same error; no later word is attempted |
| `RetryRun.AllTimeoutsExhaust` | keywordplanner.go:80-93 | if every attempt at a word times out and the earlier words succeed, the run ends with "maximum number of retry attempts reached"; its last attempts are exactly the budgeted attempts at that word; all earlier attempts are at earlier words |
| `RetryRun.TimeoutsExhaustBudget` | keywordplanner.go:81-93 | a word that only times out is attempted exactly its budget of times and stops with the retry error |
| `RetryRun.TimeoutsGiveMaxRetryAttempts` | keywordplanner.go:81-93 | without wrap-around the budget is `max(Retry, 1)`, because the counter is checked after the decrement |
| `RetryRun.MinRetryWrapsAround` | keywordplanner.go:90-93 | with Go's 64-bit counter, `Retry` at the minimum gives 2^63 attempts where the unbounded counter gives one |
| `RetryRun.RetryWordWrapAgrees` | keywordplanner.go:81-94 | for every other counter value, the 64-bit and unbounded word loops coincide |
| `RetryRun.RunWrapAgrees` | keywordplanner.go:80-97 | for every `Retry` but the 64-bit minimum, the run is the same under both readings of the counter |
| `RetryRun.FatalSecondWordExample` | keywordplanner.go:80-89 | with three words and the second fatal, the trace is one attempt at the first and one at the second; the third is never attempted |
| `Execution.Execute` | keywordplanner.go:49-97 | a failed width probe or download setup aborts with the wrapped error before any word is attempted; the button follows the probed width; otherwise the run has the word loop's shape over the classified attempt results |
| `Execution.ExecuteCompletesIff` | keywordplanner.go:80-97 | once set up, the run succeeds if and only if every word has an attempt within `max(Retry, 1)` that finishes first with nil, and every earlier attempt lost to the deadline |
| `Execution.RetriedOnlyAfterDeadline` | keywordplanner.go:83-93 | when another attempt follows, it is at the same word exactly when the previous attempt lost the race to the deadline (a lost race on the last budgeted attempt ends the run instead) |
| `Execution.InnerDeadlineEndsRun` | keywordplanner.go:83-89 | a first attempt whose browser steps hit the deadline ends the run with the wrapped error after that single attempt |
| `Execution.TwoWordExample` | keywordplanner.go:80-97 | for words `socks` and `a/b` with `Retry` 2 and every attempt succeeding at once, the run succeeds after one attempt per word, in order |

## Left out

- Browser automation (`chromedp.Run` with navigate, sleep, click, wait, set value, `AttributeValue`, `Evaluate`, `SetDownloadBehavior`, keywordplanner.go:50-52, 71-75, 118-156): foreign library calls. Only their results are modelled, as inputs: an optional error per `Run` call, plus the attribute's value and presence.
- Session creation (keywordplanner.go:38-47): the `ws://127.0.0.1:<port>/` allocator, the browser context and the `Debug` logger option are foreign plumbing. `Port` and `Debug` are carried in `Request` but have no effect in the model.
- The goroutine and `select` race in `getKeywords` (keywordplanner.go:101-114): concurrency and wall-clock time. Which side won is an input (`Race`). Not modelled: the conversion of `Timeout` to a duration, the abandoned goroutine that keeps using the shared session after its deadline, and its blocked send on `done`.
- The download listener and the `downloadDone` channel (keywordplanner.go:25, 62-68, 158-161): concurrency. The received handle is an input (`guid`), and `None` stands for a closed channel. The source never closes the channel, so that branch is modelled but unreachable in practice. Not modelled: a completion left over from an abandoned attempt, which a later attempt could receive.
- `ctx.Err()` at keywordplanner.go:113 is taken to be `context.DeadlineExceeded`. The parent context is never cancelled during a run, so `context.Canceled` cannot arise there.
- File operations (`os.TempDir`, `os.Open`, `os.Create`, `io.Copy`, keywordplanner.go:70, 163-175): I/O. Their failures are inputs, and the temporary directory is a parameter. `filepath.Join` is an uninterpreted parameter `join`. File contents, partially written files and files left open are not modelled.
- Logging (keywordplanner.go:145, 177): no effect on results.
- The conversion `[]rune(word)` (keywordplanner.go:186) turns invalid UTF-8 bytes into U+FFFD. The model starts from the rune sequence.
- Error message texts are modelled only as far as the core distinguishes them: the `%w` wrapping versus plain errors, and the literal messages of `errors.New`.
- Execution.Execute: counts attempts without wrap-around. For `Retry` equal to Go's 64-bit minimum it gives one attempt per timed-out word, where the code wraps and gives 2^63 attempts (see Findings). `RetryRun.RunWrapAgrees` shows that the two agree for every other `Retry`.
- cmd/kp/main.go: flag parsing, output-directory checks and `log.Fatal` exits are command-line plumbing. Its rule that at least one word is given is not assumed: the model also handles an empty word list.

## Findings

| source | as written | input that shows it | evidently intended | confidence | as-written member | corrected member |
|---|---|---|---|---|---|---|
| keywordplanner.go:81-93 | `attempts--` on Go's 64-bit `int`; the loop stops when `attempts <= 0` | `-retry=-9223372036854775808` with every attempt at a word timing out: the first decrement wraps to 9223372036854775807, so the word is attempted 2^63 times (2^63 − 1 retries) | at most `max(Retry, 1)` attempts per word | medium (assumes a 64-bit `int`); not executed | `RetryRun.MinRetryWrapsAround` | `RetryRun.TimeoutsGiveMaxRetryAttempts` |

The rest of the model, `Execution.Execute` included, evaluates the counter
without wrap-around (`RetryRun.Unbounded`). `RetryRun.RunWrapAgrees` shows
that this coincides with the 64-bit code for every other `Retry` value.

=== FILE: errors.dfy ===
/**
 Go error values as the keyword planner produces and compares them, and the
 classification the retry loop of `Request.Execute` applies to the error an
 attempt returns.
 */
module Errors {
  import opened Options

  /** An `error` value. Only the shapes the core produces or tests are distinguished. */
  datatype GoError =
    | DeadlineExceeded                          // the sentinel `context.DeadlineExceeded`
    | Wrapped(context: string, inner: GoError)  // `fmt.Errorf("<context>: %w", inner)`
    | Plain(msg: string)                        // `errors.New(msg)`, or any foreign error

  /** What one attempt at a word amounts to for the retry loop. */
  datatype Outcome = Ok | Timeout | Fatal(err: GoError)

  /** The prefix every failed `chromedp.Run` is wrapped with. */
  const RunFailed: string := "chromedp.Run failed"

  /** `errors.Is(e, context.DeadlineExceeded)`: the deadline, however deeply wrapped. */
  predicate IsDeadline(e: GoError) {
    match e
    case DeadlineExceeded => true
    case Wrapped(_, inner) => IsDeadline(inner)
    case Plain(_) => false
  }

  /**
   The retry loop's reading of an attempt's result: nil is success, the bare
   sentinel (compared with `!=`, not `errors.Is`) is a timeout, and every other
   error, a wrapped deadline included, is fatal and is passed on unchanged.
   */
  function Classify(r: Option<GoError>): (o: Outcome)
    ensures o == Ok <==> r == None
    ensures o == Timeout <==> r == Some(DeadlineExceeded)
    ensures o.Fatal? <==> r.Some? && r.value != DeadlineExceeded
    ensures o.Fatal? ==> o.err == r.value
  {
    match r
    case None => Ok
    case Some(e) => if e == DeadlineExceeded then Timeout else Fatal(e)
  }

  /** A deadline wrapped with context is still a deadline to `errors.Is`, but fatal to the loop. */
  lemma WrappedDeadlineIsFatal(context: string, e: GoError)
    requires IsDeadline(e)
    ensures IsDeadline(Wrapped(context, e))
    ensures Classify(Some(Wrapped(context, e))) == Fatal(Wrapped(context, e))
  {
  }
}

=== FILE: execute.dfy ===
/**
 `Request.Execute`: probe the viewport once to choose the download button,
 enable downloads once, then run the word loop, where each attempt is one
 supervised `getKeywords` call on the shared browser session.
 */
module Execution {
  import opened Options
  import opened Errors
  import opened Extraction
  import opened RetryRun

  /** The run request, as the command line fills it in. */
  datatype Request = Request(words: seq<string>, outDir: string, port: int, timeout: int, retry: int, debug: bool)

  /** The reply to evaluating `window.innerWidth`. */
  datatype WidthProbe = Width(pixels: int) | ProbeFailed(err: GoError)

  /**
   What the browser session reports over one run: the width probe, the
   reply to enabling downloads, the process's temporary directory, and for
   every (word index, attempt number) which side of the deadline race won,
   with the replies the attempt saw when it finished first.
   */
  datatype Session = Session(width: WidthProbe, behaviourErr: Option<GoError>, tempDir: string, races: (nat, nat) -> Race)

  /** The run's result, the download button it chose (if it got that far) and the attempts it made. */
  datatype RunOutcome = RunOutcome(verdict: Verdict, downloadButton: Option<string>, trace: seq<Attempt>)

  /** The outcome the retry loop sees for each attempt. */
  function AttemptOutcomes(req: Request, session: Session, join: (string, string) -> string): (nat, nat) -> Outcome {
    (i: nat, t: nat) =>
      if i < |req.words| then Classify(GetKeywords(req.words[i], req.outDir, session.tempDir, join, session.races(i, t)))
      else Ok
  }

  function Execute(req: Request, session: Session, join: (string, string) -> string): (e: RunOutcome)
    ensures session.width.ProbeFailed? ==> e == RunOutcome(Aborted(Wrapped(RunFailed, session.width.err)), None, [])
    ensures session.width.Width? ==> e.downloadButton == Some(SelectDownloadButton(session.width.pixels))
    ensures session.width.Width? && session.behaviourErr.Some? ==>
              e.verdict == Aborted(Wrapped(RunFailed, session.behaviourErr.value)) && e.trace == []
    ensures session.width.Width? && session.behaviourErr.None? ==>
              RunShape(Unbounded, AttemptOutcomes(req, session, join), |req.words|, req.retry, 0, RunResult(e.verdict, e.trace))
  {
    match session.width
    case ProbeFailed(err) => RunOutcome(Aborted(Wrapped(RunFailed, err)), None, [])
    case Width(pixels) =>
      var button := SelectDownloadButton(pixels);
      if session.behaviourErr.Some? then
        RunOutcome(Aborted(Wrapped(RunFailed, session.behaviourErr.value)), Some(button), [])
      else
        var r := Run(Unbounded, AttemptOutcomes(req, session, join), |req.words|, req.retry);
        RunOutcome(r.verdict, Some(button), r.trace)
  }

  /** The attempt at `(i, t)` finished before its deadline and returned nil. */
  predicate AttemptSucceeded(req: Request, session: Session, join: (string, string) -> string, i: nat, t: nat)
    requires i < |req.words|
  {
    && session.races(i, t).FinishedFirst?
    && ErrorOf(GetKeywordsSub(req.words[i], req.outDir, session.tempDir, join, session.races(i, t).replies)) == None
  }

  /** Word `i` is saved or found empty within `max(retry, 1)` attempts, every earlier one lost to the deadline. */
  ghost predicate WordSucceeds(req: Request, session: Session, join: (string, string) -> string, i: nat)
    requires i < |req.words|
  {
    exists t: nat :: t < Budget(Unbounded, req.retry) && AttemptSucceeded(req, session, join, i, t)
                     && forall s: nat :: s < t ==> session.races(i, s).DeadlineFirst?
  }

  lemma OutcomeReadsRace(req: Request, session: Session, join: (string, string) -> string, i: nat, t: nat)
    requires i < |req.words|
    ensures AttemptOutcomes(req, session, join)(i, t) == Timeout <==> session.races(i, t).DeadlineFirst?
    ensures AttemptOutcomes(req, session, join)(i, t) == Ok <==> AttemptSucceeded(req, session, join, i, t)
  {
  }

  lemma WordSucceedsIff(req: Request, session: Session, join: (string, string) -> string, i: nat)
    requires i < |req.words|
    ensures WordSucceeds(req, session, join, i) <==>
              SucceedsWithin(AttemptOutcomes(req, session, join), i, 0, Budget(Unbounded, req.retry))
  {
    var o := AttemptOutcomes(req, session, join);
    forall t: nat
      ensures (o(i, t) == Timeout <==> session.races(i, t).DeadlineFirst?)
              && (o(i, t) == Ok <==> AttemptSucceeded(req, session, join, i, t))
    {
      OutcomeReadsRace(req, session, join, i, t);
    }
  }

  /**
   Once the session is set up, the run succeeds exactly when every word, in
   turn, has an attempt that returns nil within its budget after nothing but
   lost deadline races.
   */
  lemma ExecuteCompletesIff(req: Request, session: Session, join: (string, string) -> string)
    requires session.width.Width? && session.behaviourErr.None?
    ensures Execute(req, session, join).verdict == Completed <==>
              forall i :: 0 <= i < |req.words| ==> WordSucceeds(req, session, join, i)
  {
    RunCompletesIff(Unbounded, AttemptOutcomes(req, session, join), |req.words|, req.retry);
    forall i | 0 <= i < |req.words|
      ensures WordSucceeds(req, session, join, i) <==>
                SucceedsWithin(AttemptOutcomes(req, session, join), i, 0, Budget(Unbounded, req.retry))
    {
      WordSucceedsIff(req, session, join, i);
    }
  }

  /**
   When another attempt follows, it is at the same word exactly when the
   previous attempt lost the race to the deadline. A lost race on the last
   budgeted attempt ends the run instead.
   */
  lemma RetriedOnlyAfterDeadline(req: Request, session: Session, join: (string, string) -> string, m: nat)
    requires session.width.Width? && session.behaviourErr.None?
    requires m + 1 < |Execute(req, session, join).trace|
    ensures var e := Execute(req, session, join);
            e.trace[m + 1].word == e.trace[m].word <==> session.races(e.trace[m].word, e.trace[m].number).DeadlineFirst?
  {
    var e := Execute(req, session, join);
    assert Follows(AttemptOutcomes(req, session, join), e.trace[m], e.trace[m + 1]);
    OutcomeReadsRace(req, session, join, e.trace[m].word, e.trace[m].number);
  }

  /** A deadline met inside the browser steps of the first attempt ends the run at once, wrapped. */
  lemma InnerDeadlineEndsRun(req: Request, session: Session, join: (string, string) -> string)
    requires session.width.Width? && session.behaviourErr.None?
    requires |req.words| > 0
    requires session.races(0, 0).FinishedFirst? && session.races(0, 0).replies.searchErr == Some(DeadlineExceeded)
    ensures Execute(req, session, join).verdict == Aborted(Wrapped(RunFailed, DeadlineExceeded))
    ensures Execute(req, session, join).trace == [Attempt(0, 0)]
  {
    var o := AttemptOutcomes(req, session, join);
    assert o(0, 0) == Fatal(Wrapped(RunFailed, DeadlineExceeded));
    assert RetryWord(Unbounded, o, 0, 0, req.retry) == WordRun(Stopped(Wrapped(RunFailed, DeadlineExceeded)), [Attempt(0, 0)]);
  }

  /**
   The two-word request "socks", "a/b" with `Retry` 2 on a session where
   every attempt finishes at once: both words are attempted once each, in
   order, and the run succeeds.
   */
  lemma TwoWordExample(session: Session, join: (string, string) -> string, outDir: string)
    requires session.width.Width? && session.behaviourErr.None?
    requires session.races(0, 0) == FinishedFirst(AttemptReplies(None, None, "false", true, None, Some("g1"), None, None, None))
    requires session.races(1, 0) == FinishedFirst(AttemptReplies(None, None, "false", true, None, Some("g2"), None, None, None))
    ensures var req := Request(["socks", "a/b"], outDir, 9222, 5, 2, false);
            Execute(req, session, join) == RunOutcome(Completed, Some(SelectDownloadButton(session.width.pixels)),
                                                    [Attempt(0, 0), Attempt(1, 0)])
  {
    var req := Request(["socks", "a/b"], outDir, 9222, 5, 2, false);
    var o := AttemptOutcomes(req, session, join);
    assert o(0, 0) == Ok;
    assert o(1, 0) == Ok;
    assert RetryWord(Unbounded, o, 0, 0, 2) == WordRun(Passed, [Attempt(0, 0)]);
    assert RetryWord(Unbounded, o, 1, 0, 2) == WordRun(Passed, [Attempt(1, 0)]);
    assert RunWords(Unbounded, o, 2, 2, 2) == RunResult(Completed, []);
    assert RunWords(Unbounded, o, 2, 2, 1) == RunResult(Completed, [Attempt(1, 0)]);
  }
}

=== FILE: extraction.dfy ===
/**
 One attempt at one word (`getKeywordsSub` and `getKeywords`), as a pure
 function of what the browser, the download listener and the file system
 reported. The browser steps themselves are not modelled; each group of
 steps that the source runs as one `chromedp.Run` contributes one possible
 error.
 */
module Extraction {
  import opened Options
  import opened Errors
  import opened Sanitizer

  /** The viewport width up to which the site lays out the narrow download menu. */
  const NarrowLayoutMaxWidth: int := 1560

  const NarrowLayoutButton: string := "//material-menu[contains(@class, 'download')][2]/material-button"
  const WideLayoutButton: string := "//material-menu[contains(@class, 'download')][1]/material-button"

  /** The download button's XPath, chosen once per run from the probed `window.innerWidth`. */
  function SelectDownloadButton(screenWidth: int): (xpath: string)
    ensures xpath == NarrowLayoutButton <==> screenWidth <= NarrowLayoutMaxWidth
    ensures xpath == WideLayoutButton <==> NarrowLayoutMaxWidth < screenWidth
  {
    // index 46 is the menu position, `[2]` in one XPath and `[1]` in the other
    assert NarrowLayoutButton[46] != WideLayoutButton[46];
    if screenWidth <= NarrowLayoutMaxWidth then NarrowLayoutButton else WideLayoutButton
  }

  /** The three ways the download button's `aria-disabled` attribute can steer the attempt. */
  datatype AriaDecision = AttributeMissing | NoKeywords | StartDownload

  function DecideOnAria(ariaDisabled: string, present: bool): (d: AriaDecision)
    ensures d == AttributeMissing <==> !present
    ensures d == NoKeywords <==> present && ariaDisabled == "true"
    ensures d == StartDownload <==> present && ariaDisabled != "true"
  {
    if !present then AttributeMissing
    else if ariaDisabled == "true" then NoKeywords
    else StartDownload
  }

  const CsvExtension: string := ".csv"

  /** The name of the file a word's keywords are saved under. */
  function DestinationFileName(word: string): (name: string)
    ensures |name| == |word| + |CsvExtension|
    ensures name[|word|..] == CsvExtension
    ensures IsClean(name)
  {
    SanitizeIsClean(word);
    Sanitize(word) + CsvExtension
  }

  /** Two words are saved under the same name exactly when they sanitise alike. */
  lemma DestinationFileNameCollides(a: string, b: string)
    ensures DestinationFileName(a) == DestinationFileName(b) <==> Sanitize(a) == Sanitize(b)
  {
    if DestinationFileName(a) == DestinationFileName(b) {
      assert |a| == |b|;
      assert Sanitize(a) == DestinationFileName(a)[..|a|];
      assert Sanitize(b) == DestinationFileName(b)[..|b|];
    }
  }

  /** Everything one attempt observes from outside the core, in the order the source asks. */
  datatype AttemptReplies = AttemptReplies(
    searchErr: Option<GoError>,    // navigate, open the ideas card, enter the word, submit
    buttonErr: Option<GoError>,    // wait for the download button, read `aria-disabled`
    ariaDisabled: string,          // the attribute's value
    ariaPresent: bool,             // whether the attribute exists
    downloadErr: Option<GoError>,  // click the button, then the `.csv` entry
    guid: Option<string>,          // the handle received from the listener; None if the channel closed
    openErr: Option<GoError>,      // opening the temporary file
    createErr: Option<GoError>,    // creating the destination file
    copyErr: Option<GoError>)      // copying the bytes

  /** How an attempt that ran to its end finished. */
  datatype SubResult =
    | NoKeywordsFound
    | Saved(src: string, dst: string)
    | Failed(err: GoError)

  const AriaMissingMessage: string := "aria-disabled attribute of download button cannot get"
  const DownloadClosedMessage: string := "cannot download csv"

  /** The error `getKeywordsSub` returns: nil unless the attempt failed. */
  function ErrorOf(r: SubResult): Option<GoError> {
    if r.Failed? then Some(r.err) else None
  }

  /** The search and the button read succeeded and the button is enabled, so the download is clicked. */
  predicate DownloadStarted(rep: AttemptReplies) {
    rep.searchErr.None? && rep.buttonErr.None? && DecideOnAria(rep.ariaDisabled, rep.ariaPresent) == StartDownload
  }

  /** The download was clicked without error and its handle arrived from the listener. */
  predicate DownloadReceived(rep: AttemptReplies) {
    DownloadStarted(rep) && rep.downloadErr.None? && rep.guid.Some?
  }

  /**
   One attempt at `word`: the first failing step decides the error; a disabled
   button ends the attempt successfully with nothing saved; otherwise the
   downloaded file `tempDir/guid` is copied to `outDir/<sanitised word>.csv`.
   `join` stands for `filepath.Join`.
   */
  function GetKeywordsSub(word: string, outDir: string, tempDir: string,
                          join: (string, string) -> string, rep: AttemptReplies): (r: SubResult)
    ensures r.Failed? ==> r.err != DeadlineExceeded
    ensures rep.searchErr.Some? ==> r == Failed(Wrapped(RunFailed, rep.searchErr.value))
    ensures r == NoKeywordsFound <==>
              rep.searchErr.None? && rep.buttonErr.None? && DecideOnAria(rep.ariaDisabled, rep.ariaPresent) == NoKeywords
    ensures r.Saved? <==>
              && rep.searchErr.None? && rep.buttonErr.None?
              && DecideOnAria(rep.ariaDisabled, rep.ariaPresent) == StartDownload
              && rep.downloadErr.None? && rep.guid.Some?
              && rep.openErr.None? && rep.createErr.None? && rep.copyErr.None?
    ensures r.Saved? ==> r.src == join(tempDir, rep.guid.value) && r.dst == join(outDir, DestinationFileName(word))
    // each later failure point returns its own error
    ensures rep.searchErr.None? && rep.buttonErr.Some? ==> r == Failed(Wrapped(RunFailed, rep.buttonErr.value))
    ensures rep.searchErr.None? && rep.buttonErr.None? && !rep.ariaPresent ==> r == Failed(Plain(AriaMissingMessage))
    ensures DownloadStarted(rep) && rep.downloadErr.Some? ==> r == Failed(Wrapped(RunFailed, rep.downloadErr.value))
    ensures DownloadStarted(rep) && rep.downloadErr.None? && rep.guid.None? ==> r == Failed(Plain(DownloadClosedMessage))
    ensures DownloadReceived(rep) && rep.openErr.Some? ==>
              r == Failed(Wrapped("cannot open " + join(tempDir, rep.guid.value), rep.openErr.value))
    ensures DownloadReceived(rep) && rep.openErr.None? && rep.createErr.Some? ==>
              r == Failed(Wrapped("cannot create " + join(outDir, DestinationFileName(word)), rep.createErr.value))
    ensures DownloadReceived(rep) && rep.openErr.None? && rep.createErr.None? && rep.copyErr.Some? ==>
              r == Failed(Plain("cannot copy dst: " + join(outDir, DestinationFileName(word)) + ", src " + join(tempDir, rep.guid.value)))
  {
    if rep.searchErr.Some? then Failed(Wrapped(RunFailed, rep.searchErr.value))
    else if rep.buttonErr.Some? then Failed(Wrapped(RunFailed, rep.buttonErr.value))
    else match DecideOnAria(rep.ariaDisabled, rep.ariaPresent)
      case AttributeMissing => Failed(Plain(AriaMissingMessage))
      case NoKeywords => NoKeywordsFound
      case StartDownload =>
        if rep.downloadErr.Some? then Failed(Wrapped(RunFailed, rep.downloadErr.value))
        else if rep.guid.None? then Failed(Plain(DownloadClosedMessage))
        else
          var srcPath := join(tempDir, rep.guid.value);
          var dstPath := join(outDir, DestinationFileName(word));
          if rep.openErr.Some? then Failed(Wrapped("cannot open " + srcPath, rep.openErr.value))
          else if rep.createErr.Some? then Failed(Wrapped("cannot create " + dstPath, rep.createErr.value))
          else if rep.copyErr.Some? then Failed(Plain("cannot copy dst: " + dstPath + ", src " + srcPath))
          else Saved(srcPath, dstPath)
  }

  /** Which side of the `select` in `getKeywords` fired first. */
  datatype Race = DeadlineFirst | FinishedFirst(replies: AttemptReplies)

  /**
   One supervised attempt: the attempt's own error if it finished first, the
   bare deadline sentinel if the deadline fired first. The retry loop therefore
   sees a timeout exactly when the deadline won, never from inside the attempt.
   */
  function GetKeywords(word: string, outDir: string, tempDir: string,
                       join: (string, string) -> string, race: Race): (err: Option<GoError>)
    ensures Classify(err) == Timeout <==> race.DeadlineFirst?
    ensures race.FinishedFirst? ==> err == ErrorOf(GetKeywordsSub(word, outDir, tempDir, join, race.replies))
  {
    match race
    case DeadlineFirst => Some(DeadlineExceeded)
    case FinishedFirst(rep) => ErrorOf(GetKeywordsSub(word, outDir, tempDir, join, rep))
  }

  /** A deadline hit inside the browser steps is wrapped and so ends the run rather than being retried. */
  lemma InnerDeadlineIsFatal(word: string, outDir: string, tempDir: string,
                             join: (string, string) -> string, rep: AttemptReplies)
    requires rep.searchErr == Some(DeadlineExceeded)
    ensures Classify(GetKeywords(word, outDir, tempDir, join, FinishedFirst(rep)))
            == Fatal(Wrapped(RunFailed, DeadlineExceeded))
  {
  }

  /**
   Two words, "socks" and "a/b", whose attempts succeed at every step with
   download handles "g1" and "g2", are copied from `tempDir/g1` and
   `tempDir/g2` to `outDir/socks.csv` and `outDir/a_b.csv`.
   */
  lemma ExampleDestinations(outDir: string, tempDir: string, join: (string, string) -> string,
                            rep1: AttemptReplies, rep2: AttemptReplies)
    requires rep1 == AttemptReplies(None, None, "false", true, None, Some("g1"), None, None, None)
    requires rep2 == rep1.(guid := Some("g2"))
    ensures GetKeywordsSub("socks", outDir, tempDir, join, rep1) == Saved(join(tempDir, "g1"), join(outDir, "socks.csv"))
    ensures GetKeywordsSub("a/b", outDir, tempDir, join, rep2) == Saved(join(tempDir, "g2"), join(outDir, "a_b.csv"))
  {
    SanitizeNotInjective();
    assert IsClean("socks");
    SanitizeFixesExactlyClean("socks");
    assert DestinationFileName("socks") == "socks" + CsvExtension == "socks.csv";
    assert DestinationFileName("a/b") == "a_b" + CsvExtension == "a_b.csv";
  }
}

=== FILE: options.dfy ===
/** A value that may be absent: a Go result paired with an `ok` flag or a nil error. */
module Options {

  datatype Option<+T> = None | Some(value: T)
}

=== FILE: retry_run.dfy ===
/**
 The word loop of `Request.Execute`: words are tried in order; each word is
 attempted until an attempt succeeds, an attempt fails with anything but the
 bare deadline, or the retry counter runs out. What each attempt amounts to
 is supplied as an oracle from (word index, attempt number) to an `Outcome`.
 */
module RetryRun {
  import opened Errors

  const MinInt64: int := -0x8000_0000_0000_0000
  const MaxInt64: int := 0x7fff_ffff_ffff_ffff

  /** How the counter's `attempts--` is evaluated. */
  datatype Arithmetic =
    | Unbounded   // mathematical integers: the counter never wraps
    | Wrapping64  // Go's 64-bit `int`: decrementing the minimum yields the maximum

  predicate Representable(a: Arithmetic, x: int) {
    a == Wrapping64 ==> MinInt64 <= x <= MaxInt64
  }

  function Decrement(a: Arithmetic, x: int): (y: int)
    requires Representable(a, x)
    ensures Representable(a, y)
    ensures y < x || (a == Wrapping64 && x == MinInt64 && y == MaxInt64)
  {
    if a == Wrapping64 && x == MinInt64 then MaxInt64 else x - 1
  }

  /**
   How many attempts a word that only ever times out is given when the
   counter starts at `retry`: the check follows the decrement, so a counter
   of one or less still allows one attempt, unless the decrement wraps.
   */
  function Budget(a: Arithmetic, retry: int): (n: nat)
    ensures n >= 1
  {
    if retry >= 1 then retry
    else if a == Wrapping64 && retry == MinInt64 then MaxInt64 + 1
    else 1
  }

  const MaxRetriesError: GoError := Plain("maximum number of retry attempts reached")

  /** The `number`-th attempt (from 0) at the word with index `word`. */
  datatype Attempt = Attempt(word: nat, number: nat)

  datatype WordEnd = Passed | Stopped(err: GoError)
  datatype WordRun = WordRun(end: WordEnd, trace: seq<Attempt>)

  datatype Verdict = Completed | Aborted(err: GoError)
  datatype RunResult = RunResult(verdict: Verdict, trace: seq<Attempt>)

  function OutcomeOf(outcome: (nat, nat) -> Outcome, t: Attempt): Outcome {
    outcome(t.word, t.number)
  }

  /** How a word ends after `tries` attempts whose last one had outcome `last`. */
  predicate WordEndsAs(a: Arithmetic, retry: int, tries: nat, last: Outcome, end: WordEnd) {
    && (end == Passed <==> last == Ok)
    && (last.Fatal? ==> end == Stopped(last.err))
    && (last == Timeout ==> end == Stopped(MaxRetriesError) && tries == Budget(a, retry))
  }

  /**
   What the attempts `k`, `k + 1`, ... at word `i`, with the counter at
   `attempts`, look like: at least one and at most `Budget` of them, numbered
   consecutively; every one but the last timed out, and the last one decides
   how the word ends.
   */
  predicate WordShape(a: Arithmetic, outcome: (nat, nat) -> Outcome, attempts: int, i: nat, k: nat, w: WordRun) {
    && 1 <= |w.trace| <= Budget(a, attempts)
    && (forall m :: 0 <= m < |w.trace| ==> w.trace[m] == Attempt(i, k + m))
    && (forall m :: 0 <= m < |w.trace| - 1 ==> OutcomeOf(outcome, w.trace[m]) == Timeout)
    && WordEndsAs(a, attempts, |w.trace|, OutcomeOf(outcome, w.trace[|w.trace| - 1]), w.end)
  }

  /** The retry loop for word `i` from attempt `k`, with the counter at `attempts`. */
  function RetryWord(a: Arithmetic, outcome: (nat, nat) -> Outcome, i: nat, k: nat, attempts: int): (r: WordRun)
    requires Representable(a, attempts)
    ensures WordShape(a, outcome, attempts, i, k, r)
    decreases Budget(a, attempts)
  {
    match outcome(i, k)
    case Ok => WordRun(Passed, [Attempt(i, k)])
    case Fatal(e) => WordRun(Stopped(e), [Attempt(i, k)])
    case Timeout =>
      var next := Decrement(a, attempts);
      if next <= 0 then WordRun(Stopped(MaxRetriesError), [Attempt(i, k)])
      else
        var rest := RetryWord(a, outcome, i, k + 1, next);
        AfterTimeoutShape(a, outcome, attempts, i, k, rest);
        WordRun(rest.end, [Attempt(i, k)] + rest.trace)
  }

  /** A timed-out attempt `k` in front of the attempts from `k + 1` on, with the counter decremented. */
  lemma AfterTimeoutShape(a: Arithmetic, outcome: (nat, nat) -> Outcome, attempts: int, i: nat, k: nat, rest: WordRun)
    requires Representable(a, attempts)
    requires outcome(i, k) == Timeout
    requires Decrement(a, attempts) > 0
    requires WordShape(a, outcome, Decrement(a, attempts), i, k + 1, rest)
    ensures WordShape(a, outcome, attempts, i, k, WordRun(rest.end, [Attempt(i, k)] + rest.trace))
  {
    var t := [Attempt(i, k)] + rest.trace;
    assert t[|t| - 1] == rest.trace[|rest.trace| - 1];
    forall m | 0 <= m < |t|
      ensures t[m] == Attempt(i, k + m)
    {
      if m > 0 {
        assert t[m] == rest.trace[m - 1];
      }
    }
    forall m | 0 <= m < |t| - 1
      ensures OutcomeOf(outcome, t[m]) == Timeout
    {
      if m > 0 {
        assert t[m] == rest.trace[m - 1];
      }
    }
  }

  /** Each attempt after the first follows from the previous one: a retry after a timeout, or the next word after a success. */
  predicate Follows(outcome: (nat, nat) -> Outcome, prev: Attempt, next: Attempt) {
    || (OutcomeOf(outcome, prev) == Timeout && next == Attempt(prev.word, prev.number + 1))
    || (OutcomeOf(outcome, prev) == Ok && next == Attempt(prev.word + 1, 0))
  }

  /** Consecutive attempts follow each other. The second bound variable avoids a `trace[m]`/`trace[m + 1]` matching loop. */
  ghost predicate Chained(outcome: (nat, nat) -> Outcome, trace: seq<Attempt>) {
    forall m, n :: 0 <= m < n < |trace| && n == m + 1 ==> Follows(outcome, trace[m], trace[n])
  }

  /** Word indices never go back. */
  predicate InWordOrder(trace: seq<Attempt>) {
    forall m, n :: 0 <= m <= n < |trace| ==> trace[m].word <= trace[n].word
  }

  /** Why a run stopped early, read off its last attempt. */
  predicate AbortsAfter(a: Arithmetic, retry: int, last: Attempt, o: Outcome, err: GoError) {
    || o == Fatal(err)
    || (o == Timeout && err == MaxRetriesError && last.number + 1 == Budget(a, retry))
  }

  /** What every run over the words `i` up to `count` looks like. */
  ghost predicate RunShape(a: Arithmetic, outcome: (nat, nat) -> Outcome, count: nat, retry: int, i: nat, r: RunResult) {
    && (i == count ==> r == RunResult(Completed, []))
    && (i < count ==> |r.trace| > 0 && r.trace[0] == Attempt(i, 0))
    && (forall m :: 0 <= m < |r.trace| ==> i <= r.trace[m].word < count && r.trace[m].number < Budget(a, retry))
    && InWordOrder(r.trace)
    && Chained(outcome, r.trace)
    && (r.verdict == Completed && i < count ==>
          r.trace[|r.trace| - 1].word == count - 1 && OutcomeOf(outcome, r.trace[|r.trace| - 1]) == Ok)
    && (r.verdict.Aborted? ==>
          |r.trace| > 0 && AbortsAfter(a, retry, r.trace[|r.trace| - 1], OutcomeOf(outcome, r.trace[|r.trace| - 1]), r.verdict.err))
  }

  /**
   The words with indices `i` up to `count` (exclusive), each through its own
   retry loop with the counter starting at `retry`; the first word that does
   not pass ends the run with its error.
   */
  function RunWords(a: Arithmetic, outcome: (nat, nat) -> Outcome, count: nat, retry: int, i: nat): (r: RunResult)
    requires Representable(a, retry)
    requires i <= count
    ensures RunShape(a, outcome, count, retry, i, r)
    decreases count - i
  {
    if i == count then RunResult(Completed, [])
    else
      var w := RetryWord(a, outcome, i, 0, retry);
      match w.end
      case Stopped(e) =>
        StoppedWordShape(a, outcome, count, retry, i, w);
        RunResult(Aborted(e), w.trace)
      case Passed =>
        var rest := RunWords(a, outcome, count, retry, i + 1);
        PassedWordShape(a, outcome, count, retry, i, w, rest);
        RunResult(rest.verdict, w.trace + rest.trace)
  }

  lemma StoppedWordShape(a: Arithmetic, outcome: (nat, nat) -> Outcome, count: nat, retry: int, i: nat, w: WordRun)
    requires i < count && w.end.Stopped?
    requires WordShape(a, outcome, retry, i, 0, w)
    ensures RunShape(a, outcome, count, retry, i, RunResult(Aborted(w.end.err), w.trace))
  {
    var t := w.trace;
    forall m | 0 <= m < |t| - 1
      ensures Follows(outcome, t[m], t[m + 1])
    {
      assert t[m] == Attempt(i, m) && t[m + 1] == Attempt(i, m + 1);
    }
  }

  lemma PassedWordShape(a: Arithmetic, outcome: (nat, nat) -> Outcome, count: nat, retry: int, i: nat,
                        w: WordRun, rest: RunResult)
    requires i < count && w.end == Passed
    requires WordShape(a, outcome, retry, i, 0, w)
    requires RunShape(a, outcome, count, retry, i + 1, rest)
    ensures RunShape(a, outcome, count, retry, i, RunResult(rest.verdict, w.trace + rest.trace))
  {
    var t := w.trace + rest.trace;
    var last := w.trace[|w.trace| - 1];
    assert OutcomeOf(outcome, last) == Ok;
    assert Chained(outcome, w.trace) by {
      forall m | 0 <= m < |w.trace| - 1
        ensures Follows(outcome, w.trace[m], w.trace[m + 1])
      {
        assert w.trace[m] == Attempt(i, m) && w.trace[m + 1] == Attempt(i, m + 1);
      }
    }
    assert |rest.trace| > 0 ==> Follows(outcome, last, rest.trace[0]);
    ConcatChained(outcome, w.trace, rest.trace);
    ConcatInOrder(w.trace, rest.trace, i);
    assert forall m :: 0 <= m < |t| ==> i <= t[m].word < count && t[m].number < Budget(a, retry) by {
      forall m | 0 <= m < |t|
        ensures i <= t[m].word < count && t[m].number < Budget(a, retry)
      {
        if m < |w.trace| {
          assert t[m] == w.trace[m];
        } else {
          assert t[m] == rest.trace[m - |w.trace|];
        }
      }
    }
    if |rest.trace| > 0 {
      assert t[|t| - 1] == rest.trace[|rest.trace| - 1];
    } else {
      assert t == w.trace;
    }
  }

  lemma ConcatInOrder(front: seq<Attempt>, back: seq<Attempt>, i: nat)
    requires forall m :: 0 <= m < |front| ==> front[m].word == i
    requires forall m :: 0 <= m < |back| ==> i < back[m].word
    requires InWordOrder(back)
    ensures InWordOrder(front + back)
  {
  }

  lemma ConcatChained(outcome: (nat, nat) -> Outcome, front: seq<Attempt>, back: seq<Attempt>)
    requires Chained(outcome, front) && Chained(outcome, back)
    requires |front| > 0 && |back| > 0 ==> Follows(outcome, front[|front| - 1], back[0])
    ensures Chained(outcome, front + back)
  {
    var t := front + back;
    forall m | 0 <= m < |t| - 1
      ensures Follows(outcome, t[m], t[m + 1])
    {
      if m < |front| - 1 {
        assert t[m] == front[m] && t[m + 1] == front[m + 1];
      } else if m == |front| - 1 {
        assert t[m] == front[m] && t[m + 1] == back[0];
      } else {
        assert t[m] == back[m - |front|] && t[m + 1] == back[m - |front| + 1];
      }
    }
  }

  /** The whole loop over `count` words. */
  function Run(a: Arithmetic, outcome: (nat, nat) -> Outcome, count: nat, retry: int): (r: RunResult)
    requires Representable(a, retry)
    ensures RunShape(a, outcome, count, retry, 0, r)
  {
    RunWords(a, outcome, count, retry, 0)
  }

  /** Word `i` gets an `Ok` within `n` attempts from attempt `k`, after nothing but timeouts. */
  ghost predicate SucceedsWithin(outcome: (nat, nat) -> Outcome, i: nat, k: nat, n: nat) {
    exists t: nat :: k <= t < k + n && outcome(i, t) == Ok && forall s: nat :: k <= s < t ==> outcome(i, s) == Timeout
  }

  /** A word passes exactly when an attempt succeeds within its budget after nothing but timeouts. */
  lemma RetryWordPassesIff(a: Arithmetic, outcome: (nat, nat) -> Outcome, i: nat, k: nat, attempts: int)
    requires Representable(a, attempts)
    ensures RetryWord(a, outcome, i, k, attempts).end == Passed <==> SucceedsWithin(outcome, i, k, Budget(a, attempts))
  {
    var w := RetryWord(a, outcome, i, k, attempts);
    var last := LastAttemptFacts(a, outcome, i, k, attempts);
    var n := Budget(a, attempts);
    if w.end == Passed {
      assert k <= last < k + n && outcome(i, last) == Ok;
    } else if SucceedsWithin(outcome, i, k, n) {
      var t: nat :| k <= t < k + n && outcome(i, t) == Ok && forall s: nat :: k <= s < t ==> outcome(i, s) == Timeout;
    }
  }

  /** The attempts of one word, read back as outcomes: timeouts up to the last attempt, which decides. */
  lemma LastAttemptFacts(a: Arithmetic, outcome: (nat, nat) -> Outcome, i: nat, k: nat, attempts: int) returns (last: nat)
    requires Representable(a, attempts)
    ensures var w := RetryWord(a, outcome, i, k, attempts);
            && last == k + |w.trace| - 1
            && (forall s: nat :: k <= s < last ==> outcome(i, s) == Timeout)
            && WordEndsAs(a, attempts, |w.trace|, outcome(i, last), w.end)
  {
    var w := RetryWord(a, outcome, i, k, attempts);
    last := k + |w.trace| - 1;
    assert w.trace[|w.trace| - 1] == Attempt(i, last);
    forall s: nat | k <= s < last
      ensures outcome(i, s) == Timeout
    {
      assert w.trace[s - k] == Attempt(i, s);
      assert OutcomeOf(outcome, w.trace[s - k]) == Timeout;
    }
  }

  lemma {:induction false} RunWordsCompletesIff(a: Arithmetic, outcome: (nat, nat) -> Outcome, count: nat, retry: int, i: nat)
    requires Representable(a, retry)
    requires i <= count
    ensures RunWords(a, outcome, count, retry, i).verdict == Completed <==>
              forall j :: i <= j < count ==> SucceedsWithin(outcome, j, 0, Budget(a, retry))
    decreases count - i
  {
    if i < count {
      RunWordsCompletesIff(a, outcome, count, retry, i + 1);
      CompletesStep(a, outcome, count, retry, i);
    }
  }

  lemma CompletesStep(a: Arithmetic, outcome: (nat, nat) -> Outcome, count: nat, retry: int, i: nat)
    requires Representable(a, retry)
    requires i < count
    ensures RunWords(a, outcome, count, retry, i).verdict == Completed <==>
              SucceedsWithin(outcome, i, 0, Budget(a, retry)) && RunWords(a, outcome, count, retry, i + 1).verdict == Completed
  {
    RetryWordPassesIff(a, outcome, i, 0, retry);
    var w := RetryWord(a, outcome, i, 0, retry);
    if w.end.Stopped? {
      assert RunWords(a, outcome, count, retry, i).verdict == Aborted(w.end.err);
    }
  }

  /** The run succeeds exactly when every word succeeds within its budget. */
  lemma RunCompletesIff(a: Arithmetic, outcome: (nat, nat) -> Outcome, count: nat, retry: int)
    requires Representable(a, retry)
    ensures Run(a, outcome, count, retry).verdict == Completed <==>
              forall j :: 0 <= j < count ==> SucceedsWithin(outcome, j, 0, Budget(a, retry))
  {
    RunWordsCompletesIff(a, outcome, count, retry, 0);
  }

  /** In a chained trace, only the last attempt can be fatal. */
  lemma OnlyLastIsFatal(outcome: (nat, nat) -> Outcome, trace: seq<Attempt>)
    requires Chained(outcome, trace)
    ensures forall n :: 0 <= n < |trace| - 1 ==> !OutcomeOf(outcome, trace[n]).Fatal?
  {
    forall n | 0 <= n < |trace| - 1
      ensures !OutcomeOf(outcome, trace[n]).Fatal?
    {
      assert Follows(outcome, trace[n], trace[n + 1]);
    }
  }

  /**
   A fatal attempt is the run's last attempt, the run fails with that very
   error, and no attempt in the run concerns a later word.
   */
  lemma FatalEndsRun(a: Arithmetic, outcome: (nat, nat) -> Outcome, count: nat, retry: int, m: nat)
    requires Representable(a, retry)
    requires m < |Run(a, outcome, count, retry).trace|
    requires OutcomeOf(outcome, Run(a, outcome, count, retry).trace[m]).Fatal?
    ensures var r := Run(a, outcome, count, retry);
            && m == |r.trace| - 1
            && r.verdict == Aborted(OutcomeOf(outcome, r.trace[m]).err)
            && forall n :: 0 <= n < |r.trace| ==> r.trace[n].word <= r.trace[m].word
  {
    OnlyLastIsFatal(outcome, Run(a, outcome, count, retry).trace);
  }

  /**
   The run failed with the retry error, and its last `b` attempts are
   attempts 0 to `b - 1` at word `j`, after attempts at earlier words only.
   */
  ghost predicate ExhaustedAt(r: RunResult, b: nat, j: nat) {
    && r.verdict == Aborted(MaxRetriesError)
    && |r.trace| >= b
    && (forall m :: 0 <= m < b ==> r.trace[|r.trace| - b + m] == Attempt(j, m))
    && (forall m :: 0 <= m < |r.trace| - b ==> r.trace[m].word < j)
  }

  lemma {:induction false} RunWordsExhausts(a: Arithmetic, outcome: (nat, nat) -> Outcome, count: nat, retry: int, i: nat, j: nat)
    requires Representable(a, retry)
    requires i <= j < count
    requires forall t: nat :: outcome(j, t) == Timeout
    requires forall v :: i <= v < j ==> SucceedsWithin(outcome, v, 0, Budget(a, retry))
    ensures ExhaustedAt(RunWords(a, outcome, count, retry, i), Budget(a, retry), j)
    decreases j - i
  {
    if i == j {
      ExhaustsAtFirstWord(a, outcome, count, retry, j);
    } else {
      RunWordsExhausts(a, outcome, count, retry, i + 1, j);
      ExhaustsAfterPassing(a, outcome, count, retry, i, j);
    }
  }

  /** A word that stops ends the run with its own attempts and error. */
  lemma RunWordsStops(a: Arithmetic, outcome: (nat, nat) -> Outcome, count: nat, retry: int, i: nat)
    requires Representable(a, retry)
    requires i < count
    requires RetryWord(a, outcome, i, 0, retry).end.Stopped?
    ensures var w := RetryWord(a, outcome, i, 0, retry);
            RunWords(a, outcome, count, retry, i) == RunResult(Aborted(w.end.err), w.trace)
  {
  }

  /** A word that passes is followed by the run over the remaining words. */
  lemma RunWordsPassesOn(a: Arithmetic, outcome: (nat, nat) -> Outcome, count: nat, retry: int, i: nat)
    requires Representable(a, retry)
    requires i < count
    requires RetryWord(a, outcome, i, 0, retry).end == Passed
    ensures var rest := RunWords(a, outcome, count, retry, i + 1);
            RunWords(a, outcome, count, retry, i) == RunResult(rest.verdict, RetryWord(a, outcome, i, 0, retry).trace + rest.trace)
  {
  }

  lemma ExhaustsAtFirstWord(a: Arithmetic, outcome: (nat, nat) -> Outcome, count: nat, retry: int, j: nat)
    requires Representable(a, retry)
    requires j < count
    requires forall t: nat :: outcome(j, t) == Timeout
    ensures ExhaustedAt(RunWords(a, outcome, count, retry, j), Budget(a, retry), j)
  {
    TimeoutsExhaustBudget(a, outcome, j, retry);
    RunWordsStops(a, outcome, count, retry, j);
    var w := RetryWord(a, outcome, j, 0, retry);
    var r := RunWords(a, outcome, count, retry, j);
    assert r.trace == w.trace;
    forall m | 0 <= m < |w.trace|
      ensures r.trace[|r.trace| - |w.trace| + m] == Attempt(j, m)
    {
    }
  }

  lemma ExhaustsAfterPassing(a: Arithmetic, outcome: (nat, nat) -> Outcome, count: nat, retry: int, i: nat, j: nat)
    requires Representable(a, retry)
    requires i < j < count
    requires SucceedsWithin(outcome, i, 0, Budget(a, retry))
    requires ExhaustedAt(RunWords(a, outcome, count, retry, i + 1), Budget(a, retry), j)
    ensures ExhaustedAt(RunWords(a, outcome, count, retry, i), Budget(a, retry), j)
  {
    RetryWordPassesIff(a, outcome, i, 0, retry);
    RunWordsPassesOn(a, outcome, count, retry, i);
    ExhaustedLater(RetryWord(a, outcome, i, 0, retry).trace, RunWords(a, outcome, count, retry, i + 1), Budget(a, retry), i, j);
  }

  lemma ExhaustedLater(front: seq<Attempt>, rest: RunResult, b: nat, i: nat, j: nat)
    requires i < j
    requires forall m :: 0 <= m < |front| ==> front[m].word == i
    requires ExhaustedAt(rest, b, j)
    ensures ExhaustedAt(RunResult(rest.verdict, front + rest.trace), b, j)
  {
    var t := front + rest.trace;
    forall m | 0 <= m < b
      ensures t[|t| - b + m] == Attempt(j, m)
    {
      assert t[|t| - b + m] == rest.trace[|rest.trace| - b + m];
    }
    forall m | 0 <= m < |t| - b
      ensures t[m].word < j
    {
      if m < |front| {
        assert t[m] == front[m];
      } else {
        assert t[m] == rest.trace[m - |front|];
      }
    }
  }

  /**
   When every attempt at word `j` times out and the words before it succeed,
   the run ends with the retry error after exactly `Budget` attempts at `j`,
   which are the run's last attempts.
   */
  lemma AllTimeoutsExhaust(a: Arithmetic, outcome: (nat, nat) -> Outcome, count: nat, retry: int, j: nat)
    requires Representable(a, retry)
    requires j < count
    requires forall t: nat :: outcome(j, t) == Timeout
    requires forall v :: 0 <= v < j ==> SucceedsWithin(outcome, v, 0, Budget(a, retry))
    ensures ExhaustedAt(Run(a, outcome, count, retry), Budget(a, retry), j)
  {
    RunWordsExhausts(a, outcome, count, retry, 0, j);
  }

  /** A word that only times out is attempted exactly `Budget` times and ends with the retry error. */
  lemma TimeoutsExhaustBudget(a: Arithmetic, outcome: (nat, nat) -> Outcome, i: nat, attempts: int)
    requires Representable(a, attempts)
    requires forall t: nat :: outcome(i, t) == Timeout
    ensures var w := RetryWord(a, outcome, i, 0, attempts);
            && w.end == Stopped(MaxRetriesError)
            && |w.trace| == Budget(a, attempts)
  {
    var w := RetryWord(a, outcome, i, 0, attempts);
    assert OutcomeOf(outcome, w.trace[|w.trace| - 1]) == Timeout;
  }

  /**
   With the counter evaluated without wrap-around, a word that only times out
   is attempted `max(retry, 1)` times before the retry error.
   */
  lemma TimeoutsGiveMaxRetryAttempts(outcome: (nat, nat) -> Outcome, i: nat, retry: int)
    requires forall t: nat :: outcome(i, t) == Timeout
    ensures var w := RetryWord(Unbounded, outcome, i, 0, retry);
            && w.end == Stopped(MaxRetriesError)
            && |w.trace| == (if retry >= 1 then retry else 1)
  {
    TimeoutsExhaustBudget(Unbounded, outcome, i, retry);
  }

  /**
   With Go's 64-bit counter, `retry` at the minimum wraps on the first
   decrement, and a word that only times out is attempted 2^63 times instead
   of once.
   */
  lemma MinRetryWrapsAround(outcome: (nat, nat) -> Outcome, i: nat)
    requires forall t: nat :: outcome(i, t) == Timeout
    ensures |RetryWord(Wrapping64, outcome, i, 0, MinInt64).trace| == 0x8000_0000_0000_0000
    ensures |RetryWord(Unbounded, outcome, i, 0, MinInt64).trace| == 1
  {
    TimeoutsExhaustBudget(Wrapping64, outcome, i, MinInt64);
    TimeoutsExhaustBudget(Unbounded, outcome, i, MinInt64);
  }

  /** Away from the minimum, Go's 64-bit counter and the unbounded one give the same word loop. */
  lemma {:induction false} RetryWordWrapAgrees(outcome: (nat, nat) -> Outcome, i: nat, k: nat, attempts: int)
    requires MinInt64 < attempts <= MaxInt64
    ensures RetryWord(Wrapping64, outcome, i, k, attempts) == RetryWord(Unbounded, outcome, i, k, attempts)
    decreases Budget(Unbounded, attempts)
  {
    if outcome(i, k) == Timeout && attempts - 1 > 0 {
      RetryWordWrapAgrees(outcome, i, k + 1, attempts - 1);
    }
  }

  lemma {:induction false} RunWordsWrapAgrees(outcome: (nat, nat) -> Outcome, count: nat, retry: int, i: nat)
    requires MinInt64 < retry <= MaxInt64
    requires i <= count
    ensures RunWords(Wrapping64, outcome, count, retry, i) == RunWords(Unbounded, outcome, count, retry, i)
    decreases count - i
  {
    if i < count {
      RetryWordWrapAgrees(outcome, i, 0, retry);
      RunWordsWrapAgrees(outcome, count, retry, i + 1);
    }
  }

  /** Away from the minimum, the run with Go's 64-bit counter is the run with the unbounded one. */
  lemma RunWrapAgrees(outcome: (nat, nat) -> Outcome, count: nat, retry: int)
    requires MinInt64 < retry <= MaxInt64
    ensures Run(Wrapping64, outcome, count, retry) == Run(Unbounded, outcome, count, retry)
  {
    RunWordsWrapAgrees(outcome, count, retry, 0);
  }

  /** Three words, the second failing fatally on its first attempt: the third is never attempted. */
  lemma FatalSecondWordExample(outcome: (nat, nat) -> Outcome, retry: int, e: GoError)
    requires outcome(0, 0) == Ok && outcome(1, 0) == Fatal(e)
    ensures Run(Unbounded, outcome, 3, retry) == RunResult(Aborted(e), [Attempt(0, 0), Attempt(1, 0)])
  {
    assert RetryWord(Unbounded, outcome, 0, 0, retry) == WordRun(Passed, [Attempt(0, 0)]);
    assert RetryWord(Unbounded, outcome, 1, 0, retry) == WordRun(Stopped(e), [Attempt(1, 0)]);
  }
}

=== FILE: sanitizer.dfy ===
/**
 The file-name sanitiser `convertInvalidCharacters`: every rune that is not
 allowed in a file name on common systems becomes an underscore. A Go string
 is viewed here as its sequence of runes, so `string` is `seq<char>`.
 */
module Sanitizer {

  /** The runes `\ / : * ? " > < |`, in the order the source scans them. */
  const InvalidCharacters: seq<char> := ['\\', '/', ':', '*', '?', '"', '>', '<', '|']

  /** What an invalid rune is replaced with. */
  const Replacement: char := '_'

  predicate IsInvalid(c: char) {
    c in InvalidCharacters
  }

  /** True when no rune of `s` is invalid. */
  predicate IsClean(s: string) {
    forall i :: 0 <= i < |s| ==> !IsInvalid(s[i])
  }

  function ConvertRune(c: char): (d: char)
    ensures !IsInvalid(d)
  {
    if IsInvalid(c) then Replacement else c
  }

  /** The sanitised word, built by appending one converted rune at a time. */
  function Sanitize(word: string): (r: string)
    ensures |r| == |word|
  {
    if word == [] then []
    else Sanitize(word[..|word| - 1]) + [ConvertRune(word[|word| - 1])]
  }

  /**
   The source's nested loop: for each rune, a linear search of the invalid
   set sets `matched`, and the rune or the replacement is appended.
   */
  method ConvertInvalidCharacters(word: string) returns (converted: string)
    ensures |converted| == |word|
    ensures forall i :: 0 <= i < |word| && IsInvalid(word[i]) ==> converted[i] == Replacement
    ensures forall i :: 0 <= i < |word| && !IsInvalid(word[i]) ==> converted[i] == word[i]
  {
    converted := [];
    var n := 0;
    while n < |word|
      invariant n <= |word|
      invariant converted == Sanitize(word[..n])
    {
      var c := word[n];
      var matched := false;
      var j := 0;
      while j < |InvalidCharacters|
        invariant j <= |InvalidCharacters|
        invariant !matched ==> forall m :: 0 <= m < j ==> InvalidCharacters[m] != c
        invariant matched ==> IsInvalid(c)
      {
        if c == InvalidCharacters[j] {
          matched := true;
          break;
        }
        j := j + 1;
      }
      if matched {
        converted := converted + [Replacement];
      } else {
        converted := converted + [c];
      }
      assert word[..n + 1][..n] == word[..n];
      n := n + 1;
    }
    assert word[..n] == word;
    SanitizePositionwise(word);
  }

  /** Position `i` of the output depends on position `i` of the input only. */
  lemma {:induction false} SanitizeAt(word: string, i: int)
    requires 0 <= i < |word|
    ensures Sanitize(word)[i] == ConvertRune(word[i])
    decreases |word|
  {
    if i < |word| - 1 {
      SanitizeAt(word[..|word| - 1], i);
    }
  }

  /** An invalid rune becomes the replacement in place; any other rune is kept in place. */
  lemma {:induction false} SanitizePositionwise(word: string)
    ensures forall i :: 0 <= i < |word| && IsInvalid(word[i]) ==> Sanitize(word)[i] == Replacement
    ensures forall i :: 0 <= i < |word| && !IsInvalid(word[i]) ==> Sanitize(word)[i] == word[i]
  {
    forall i | 0 <= i < |word|
      ensures Sanitize(word)[i] == ConvertRune(word[i])
    {
      SanitizeAt(word, i);
    }
  }

  /** No invalid rune survives. */
  lemma {:induction false} SanitizeIsClean(word: string)
    ensures IsClean(Sanitize(word))
    ensures forall c :: c in InvalidCharacters ==> c !in Sanitize(word)
  {
    forall i | 0 <= i < |word|
      ensures !IsInvalid(Sanitize(word)[i])
    {
      SanitizeAt(word, i);
    }
  }

  /** Sanitising leaves a word unchanged exactly when it holds no invalid rune. */
  lemma {:induction false} SanitizeFixesExactlyClean(word: string)
    ensures Sanitize(word) == word <==> IsClean(word)
  {
    SanitizeIsClean(word);
    if IsClean(word) {
      SanitizePositionwise(word);
    }
  }

  /** Sanitising twice is sanitising once. */
  lemma {:induction false} SanitizeIdempotent(word: string)
    ensures Sanitize(Sanitize(word)) == Sanitize(word)
  {
    SanitizeIsClean(word);
    SanitizeFixesExactlyClean(Sanitize(word));
  }

  /** Distinct words can share a sanitised form. */
  lemma SanitizeNotInjective()
    ensures "a/b" != "a:b" && Sanitize("a/b") == Sanitize("a:b") == "a_b"
  {
    SanitizePositionwise("a/b");
    SanitizePositionwise("a:b");
  }
}
